=== FILE: README.md ===
# Hacker Stories search: a Dafny model of its state logic

This project models the pure state logic of a small React app. The app searches
the Hacker News (Algolia) API, pages through the results, and lets the user
dismiss and sort stories. The modelled parts are:

- **Request URLs** (`urls.dfy`). `getUrl` builds
  `https://hn.algolia.com/api/v1/search?query=<term>&page=<page>` with the term
  embedded raw. `extractSearchTerm` reads the term back: it takes the text
  between the last `?` and the last `&`, then deletes the first `query=`.
- **Recent searches** (`history.dfy`). `getLastSearches` maps every issued URL
  to its term and collapses adjacent repeats. It then keeps the last six terms
  and drops the final one, which is the search on screen.
- **Stories** (`items.dfy`). This covers the story record, removal by
  `objectID` (a `filter`) and the `num_comments` total (a `reduce`).
- **The stories reducer** (`stories.dfy`). It handles STORIES_FETCH_INIT,
  STORIES_FETCH_SUCCESS, STORIES_FETCH_FAILURE and REMOVE_STORY. A success
  for page 0 replaces the list; a success for any other page appends to it.
- **The earlier reducer** (`legacy_stories.dfy`). Its success always replaces
  the list. It is related to the current reducer by a projection that forgets
  the page.
- **The session** (`session.dfy`). This covers the list of issued URLs and its
  updates (`handleSearch`, a click on a recent search, `handleMore`), plus one
  fetch cycle composed from the reducer.
- **Sorting** (`sorting.dfy`). This covers the `SORTS` table, the `handleSort`
  toggle, and the displayed `sortedList`. lodash `sortBy` is modelled as a
  stable ascending insertion sort.
- **JavaScript built-ins** (`js.dfy`). These are the built-ins the code relies
  on: `lastIndexOf`, `indexOf`, `substring` (clamping and swapping its
  arguments), `replace` with a string pattern (first occurrence only),
  `Array.prototype.slice` with negative indices, and integer-to-decimal
  rendering.

Three consequences of the code shape the contracts:

- The term round trip holds for every term that contains no `?`, on every
  page. A `?` inside the term becomes the last `?` of the URL, so searching
  `what?` reads back as the empty term, and `handleMore` then loads page 1 of
  an empty query (`Urls.QuestionMarkCounterexample`). The term read back never
  holds a `?` (`Urls.ExtractedHasNoQuestionMark`).
- Terms a, a, b, a, c collapse to a, b, a, c, so the recent searches are
  a, b, a (`History.RepeatedTermsExample`).
- The success branch tests `page === 0`. Every other page value, including a
  negative one, appends.

## Model

| member | source | states |
|---|---|---|
| Urls.RoundTrip | src/App.js:81-84 | `extractSearchTerm(getUrl(t, p)) == t` for every `?`-free term `t` and every integer page `p` |
| Urls.ExtractBetween | src/App.js:81-84 | in a URL `pre?mid&post` where `mid` holds no `?` and `post` neither `?` nor `&`, the result is `mid` with its first `query=` deleted |
| Urls.QuestionMarkTruncates | src/App.js:81-84 | when the term contains a `?`, only the text after its last `?` comes back (minus a first `query=`) |
| Urls.QuestionMarkCounterexample | src/App.js:19-20 | the URL for the term `what?` reads back as the empty term |
| Urls.GetUrl | src/App.js:19-20 | whatever the term holds, the URL has a `?` and its last `?` comes before its last `&` |
| Urls.UrlShape | src/App.js:19-20 | the URL's last `&` is the one before `page=`: before it stand the endpoint, `?`, `query=` and the term; after it `page=` and the rendered page |
| Urls.ExtractSearchTerm | src/App.js:81-84 | the term is never longer than the URL, and holds no `?` when the URL's last `?` precedes its last `&` |
| Urls.ExtractedHasNoQuestionMark | src/App.js:81-84 | the term read back from any URL `getUrl` builds holds no `?` |
| Urls.GetUrlDeterminesTerm | src/App.js:19-20 | two terms that give the same URL are the same term, whether or not they hold `?` or `&` |
| History.CollapseStep | src/App.js:88-102 | one `reduce` step grows the accumulator by at most the term, always leaves the term last, and from the second URL on keeps it free of adjacent repeats |
| History.Collapsed | src/App.js:88-102 | the `reduce` accumulator has no two equal neighbours, starts with the first URL's term, ends with the latest URL's term, and holds only issued terms |
| History.CollapseAdjacentSnoc | src/App.js:95-101 | a new term extends the collapsed list exactly when it differs from the previous term |
| History.CollapsedMatchesReference | src/App.js:88-102 | the left `reduce` equals an independent front-recursive definition of collapsing adjacent repeats |
| History.KeepRecent | src/App.js:103-104 | `.slice(-6).slice(0, -1)` is empty below two terms and otherwise the up-to-five terms before the last |
| History.GetLastSearches | src/App.js:86-104 | at most 5 terms, no two neighbouring terms equal, and every term is read back from one of the URLs |
| History.GetLastSearchesMatchesReference | src/App.js:86-104 | the result equals the last ≤6 terms of the reference collapse of the terms read back from all URLs, minus the final one |
| History.TermsSnoc | src/App.js:86-89 | the terms of one more URL are the earlier terms followed by the term read back from it |
| History.RepeatLastKeepsLastSearches | src/App.js:86-104 | appending a URL whose term equals the last URL's term leaves the recent searches unchanged |
| History.LastSearchesOfIssued | src/App.js:86-104 | for `?`-free queries the recent searches depend only on the queries' terms, not their pages |
| History.SingleUrlHasNoHistory | src/App.js:103-104 | a single issued URL gives no recent searches |
| History.RepeatedTermsExample | src/App.js:86-104 | searches a, a, b, a, c on any pages give recent searches a, b, a |
| History.CollapseFixedIff | src/App.js:95-101 | collapsing leaves a term list unchanged if and only if no two neighbouring terms are equal |
| History.DistinctTermsShowRecent | src/App.js:86-104 | when no two neighbouring terms are equal, the buttons are exactly the up-to-five terms before the last one |
| History.DistinctTermPushesLast | src/App.js:95-104 | a term other than the last one makes the last one the newest button |
| Items.RemoveById | src/App.js:72-74 | the result is a subsequence of the list, holds no story of that `objectID`, and is shorter by exactly the number of such stories |
| Items.RemoveByIdContents | src/App.js:72-74 | each story of another `objectID` keeps its multiplicity; stories of the removed id occur zero times |
| Items.RemoveByIdIds | src/App.js:72-74 | the set of ids present loses exactly the removed id |
| Items.RemoveAbsentIsNoOp | src/App.js:72-74 | removal leaves the list unchanged if and only if the id is absent |
| Items.RemoveIdempotent | src/App.js:72-74 | removing an id twice equals removing it once |
| Items.UniqueIdsCons | src/App.js:72-74 | helper of `Items.RemovePreservesUniqueIds`: a list headed by `x` has unique ids if and only if its rest does and lacks `x`'s id |
| Items.RemovePreservesUniqueIds | src/App.js:72-74 | removal keeps a list free of repeated `objectID`s |
| Items.FoldComments | src/App.js:44 | the left `reduce` from an accumulator equals the accumulator plus the reference sum of `num_comments` |
| Items.SumCommentsAppend | src/App.js:44 | the comment sum of two lists laid end to end is the sum of their sums |
| Items.RemoveNeverIncreasesSum | src/App.js:72-74 | with non-negative counts, removal keeps the sum non-negative and never raises it |
| Stories.Reduce | src/App.js:47-79 | per action: init sets loading and clears error; success clears both flags, sets the page, and replaces (page 0) or keeps the old list as prefix and the hits as suffix; failure sets error; remove filters by id; other fields unchanged |
| Stories.ReducePreservesFlagsExclusive | src/App.js:49-68 | no action makes loading and error true together; success and failure clear loading |
| Stories.Run | src/App.js:116-119 | after dispatching a list of actions, a final init leaves loading and no error, a final failure error and no loading, and a final success neither flag and its page |
| Stories.RunPreservesFlagsExclusive | src/App.js:116-119 | any sequence of dispatches from a state without both flags keeps them exclusive |
| Stories.RemoveStoryIdempotent | src/App.js:69-75 | dismissing a story twice leaves the same state as dismissing it once |
| Stories.RemoveStoryNoOpIffAbsent | src/App.js:69-75 | dismissal leaves the state unchanged if and only if the id is not shown |
| Stories.RemoveStoryKeepsIdsUnique | src/App.js:69-75 | dismissal keeps shown ids unique and removes exactly that id |
| Stories.GetSumComments | src/App.js:43-45 | the total equals the sum of `num_comments` over the shown stories |
| Stories.SuccessSumComments | src/App.js:55-62 | after a success the total is the hits' total, plus the old total unless the page is 0 |
| Stories.RemoveStoryNeverIncreasesSum | src/App.js:69-75 | with non-negative counts, dismissal never raises the total |
| LegacyStories.Reduce | src/others/AppOptimization.js:40-71 | init sets loading and clears error; success replaces the list and clears both flags; failure sets error; remove filters by id |
| LegacyStories.SuccessForgetsPreviousData | src/others/AppOptimization.js:48-54 | a success leaves the same state from any two earlier states, whatever list and flags they showed |
| LegacyStories.RemoveStoryIdempotent | src/others/AppOptimization.js:61-67 | dismissing twice equals dismissing once |
| LegacyStories.GetSumComments | src/others/AppOptimization.js:32-38 | the total equals the sum of `num_comments` |
| LegacyStories.ReducersAgreeExceptLaterPages | src/others/AppOptimization.js:40-71 | apart from the page, both reducers agree on every action except a success for a page other than 0 |
| LegacyStories.ReducersDivergeOnLaterPages | src/others/AppOptimization.js:48-54 | for a later page with stories shown, the current reducer keeps them and the earlier one drops them |
| Session.InitialUrls | src/App.js:114 | the app starts with one URL, whose term reads back when it holds no `?`, and which gives no recent searches |
| Session.HandleSearch | src/App.js:168-171 | exactly one URL is appended, earlier URLs are untouched, and a `?`-free term reads back from it |
| Session.HandleLastSearch | src/App.js:163-166 | repeating a recent search appends one URL, whose term reads back when it holds no `?` |
| Session.HandleMore | src/App.js:175-179 | exactly one URL is appended and earlier URLs are untouched |
| Session.IssueAppendsUrl | src/App.js:168-171 | issuing a query extends the URL list by that query's URL and the term list by its term |
| Session.MoreReissuesLastTerm | src/App.js:175-179 | for `?`-free queries, "More..." issues the last term at the shown page + 1 |
| Session.MoreKeepsLastSearches | src/App.js:175-179 | for any non-empty list of issued queries, `?` in the terms or not, "More..." leaves the recent searches unchanged |
| Session.NewSearchPushesActiveTerm | src/App.js:168-171 | for any non-empty URL list, a search whose term reads back differently from the last URL's term makes that term the newest recent search; a `?`-free term reads back as itself |
| Session.ButtonTermsWereIssued | src/App.js:86-104 | for `?`-free queries, every recent-search term is one of the issued terms and holds no `?` |
| Session.RepeatIssuedTerm | src/App.js:163-166 | clicking an issued term appends that term's URL at page 0, so the queries stay `?`-free |
| Session.FetchCycle | src/App.js:136-156 | after init plus outcome: loading is clear, error is set iff the transport failed, and data/page follow the success rules or are unchanged on failure |
| Session.FirstFetchSumsComments | src/App.js:121 | the first fetch of two hits on page 0 shows them and totals their comments |
| Sorting.HandleSort | src/components/List.js:49-52 | the chosen key is selected; a new key clears `isReverse`; the same key flips it |
| Sorting.ChooseTwice | src/components/List.js:49-52 | choosing the selected key twice restores the sort; choosing a new key twice leaves it reversed |
| Sorting.HeaderKey | src/components/List.js:65-99 | every header passes a key of the `SORTS` table other than NONE |
| Sorting.ClicksKeepSortKnown | src/components/List.js:44-55 | header clicks from a known sort keep the key in the table and NONE unreversed, so a sort function always exists |
| Sorting.ReachableSortsAreKnown | src/components/List.js:44-47 | from `{NONE, false}` every sequence of header clicks keeps one of the five keys |
| Sorting.InsertPermutes | src/components/List.js:10-13 | insertion adds exactly the one story to the multiset of stories |
| Sorting.InsertAscending | src/components/List.js:10-13 | inserting into an ascending list keeps it ascending |
| Sorting.SortBy | src/components/List.js:10-13 | the sorted list is as long as the input |
| Sorting.SortByPermutes | src/components/List.js:10-13 | the sort is a permutation of its input |
| Sorting.SortByAscending | src/components/List.js:10-13 | the sort is ascending by the field's key |
| Sorting.SortByStable | src/components/List.js:10-13 | stories with equal keys keep their original relative order |
| Sorting.Reverse | src/components/List.js:55 | element `i` of the reversal is element `n-1-i` of the input |
| Sorting.ReversePermutes | src/components/List.js:55 | reversal is a permutation |
| Sorting.ReverseAscendingIsDescending | src/components/List.js:12-13 | reversing an ascending list gives a descending one |
| Sorting.SortFunction | src/components/List.js:54 | a sort function exists exactly for the five table keys |
| Sorting.SortedList | src/components/List.js:54-55 | a list is shown exactly when the key is in the table |
| Sorting.SortedListPermutes | src/components/List.js:8-14 | every sort, reversed or not, shows the same multiset of stories |
| Sorting.NoneShowsListAsGiven | src/components/List.js:9 | NONE, not reversed, shows the list as given |
| Sorting.ReverseFlagReversesDisplay | src/components/List.js:55 | with `isReverse` set, the shown list is exactly the reverse of the unreversed one |
| Sorting.TextSortsAscending | src/components/List.js:10-11 | TITLE and AUTHOR show ascending, stable order |
| Sorting.NumberSortsDescending | src/components/List.js:12-13 | COMMENTS and POINTS show descending order; reversed, they show the stable ascending sort |

## Left out

- The network call and the async `handleFetchStories` (src/App.js:136-156)
  are left out. One fetch cycle is modelled as a pure composition of two
  dispatches (`Session.FetchCycle`), with the API response as a parameter. The
  race between overlapping fetches is not modelled, because it is concurrency.
- `useSemiPersistentState` and `localStorage` are left out, because they are
  browser storage. The remembered search term is a parameter of
  `Session.InitialUrls`.
- Session.HandleLastSearch: models only the `handleSearch(searchTerm, 0)` call
  of src/App.js:165. The `setSearchTerm(searchTerm)` call on line 164 only
  updates the search field's text, which is browser-stored UI state.
- React hooks, memoisation, effects and all rendering are left out. This
  includes `SearchForm` (which disables submit for an empty term),
  `InputWithLabel`, `LastSearches`, `ArrowDirection`, `Item`, and the `App`
  component of `src/others/AppOptimization.js`. Apart from that `App`, they
  hold no state logic beyond what is modelled. The earlier `App` keeps its own
  `url` state, set by a `handleSearchSubmit` wrapped in `useCallback(..., [])`
  (src/others/AppOptimization.js:101-104). That state and its submit handler
  are left out. Only its reducer and `getSumComments` are modelled.
- The `default: throw new Error()` branch of both reducers is not modelled.
  The action type is a closed datatype, so an unknown action cannot be built.
- lodash `sortBy` internals are abstracted as a stable insertion sort over a
  total order. Strings are compared character by character, and numbers
  numerically. Its handling of `null`, `undefined`, `NaN` and symbols is left
  out. JavaScript compares strings by UTF-16 code unit, while the model
  compares Dafny characters. The two orders differ only for characters outside
  the Basic Multilingual Plane.
- Sorting.SortBy: its own contract states only the length. That it permutes
  its input, orders it ascending and keeps equal keys in their order is stated
  by `Sorting.SortByPermutes`, `Sorting.SortByAscending` and
  `Sorting.SortByStable`, kept apart to keep each proof small.
- Sorting.SortFunction: looks keys up in the five-entry `SORTS` table only.
  In JavaScript, inherited object keys such as `constructor` or `toString`
  also yield a function from `SORTS[sortKey]`. Also, `SORTS.NONE(list).reverse()`
  reverses the `list` prop in place, while `Sorting.Reverse` builds a fresh
  sequence. No header passes an inherited key (`Sorting.HeaderKey`), and the
  in-place reversal is a side effect on the caller's array that a pure model
  does not have.
- JavaScript numbers are doubles. Pages and comment counts are unbounded
  integers here, so rounding of very large sums is not modelled.
- Session.HandleMore: requires a non-empty URL list. The app's list always
  holds at least the initial URL. On an empty list the source would fail
  inside `extractSearchTerm(undefined)`.
- `console.log` calls and the SVG and CSS imports are left out.

=== FILE: history.dfy ===
/**
 `getLastSearches(urls)`: the recent-search buttons derived from the list of
 issued request URLs. Every URL is mapped to its term; a `reduce` keeps a term
 only when it differs from the last one kept (the first URL's term is always
 kept); `.slice(-6)` keeps the last six kept terms and `.slice(0, -1)` drops
 the final one, which is the search currently on screen.
 */
module History {
  import Js
  import Urls

  /** The term of every URL, in issue order. */
  function Terms(urls: seq<string>): (ts: seq<string>)
    ensures |ts| == |urls|
    ensures forall i :: 0 <= i < |urls| ==> ts[i] == Urls.ExtractSearchTerm(urls[i])
  {
    seq(|urls|, i requires 0 <= i < |urls| => Urls.ExtractSearchTerm(urls[i]))
  }

  predicate NoAdjacentDuplicates(s: seq<string>)
  {
    forall i :: 0 < i < |s| ==> s[i - 1] != s[i]
  }

  /**
   The `reduce` callback, given the term the callback extracts from the URL at
   position `index`. The accumulator grows by at most the term and always ends
   with it afterwards; from the second URL on, a list free of adjacent repeats
   stays free of them.
   */
  function CollapseStep(result: seq<string>, term: string, index: nat): (r: seq<string>)
    ensures r == result || r == result + [term]
    ensures |r| > 0 && r[|r| - 1] == term
    ensures (index > 0 || |result| == 0) && NoAdjacentDuplicates(result) ==> NoAdjacentDuplicates(r)
  {
    if index == 0 then result + [term]
    // `result[result.length - 1]` of an empty array is `undefined`, which equals no string
    else if |result| > 0 && term == result[|result| - 1] then result
    else result + [term]
  }

  /** The accumulator of the `reduce` after the first `n` terms. */
  function Collapsed(ts: seq<string>, n: nat): (r: seq<string>)
    requires n <= |ts|
    ensures |r| <= n
    ensures n > 0 ==> |r| > 0 && r[0] == ts[0] && r[|r| - 1] == ts[n - 1]
    ensures NoAdjacentDuplicates(r)
    ensures forall t :: t in r ==> t in ts[..n]
  {
    if n == 0 then []
    else
      var r := CollapseStep(Collapsed(ts, n - 1), ts[n - 1], n - 1);
      assert ts[..n] == ts[..n - 1] + [ts[n - 1]];
      r
  }

  /**
   Reference definition of collapsing adjacent duplicates, written from the
   front: a term is dropped when the term right after it is the same.
   */
  function CollapseAdjacent(ts: seq<string>): (r: seq<string>)
    ensures |r| <= |ts|
    ensures |ts| > 0 ==> |r| > 0 && r[|r| - 1] == ts[|ts| - 1]
  {
    if |ts| <= 1 then ts
    else if ts[0] == ts[1] then CollapseAdjacent(ts[1..])
    else [ts[0]] + CollapseAdjacent(ts[1..])
  }

  /** Appending a term to a non-empty list extends its collapse only when it differs from the last term. */
  lemma {:induction false} CollapseAdjacentSnoc(ts: seq<string>, t: string)
    requires |ts| > 0
    ensures CollapseAdjacent(ts + [t])
         == if ts[|ts| - 1] == t then CollapseAdjacent(ts) else CollapseAdjacent(ts) + [t]
  {
    var s := ts + [t];
    if |ts| == 1 {
      assert s[1..] == [t];
    } else {
      assert s[1..] == ts[1..] + [t];
      CollapseAdjacentSnoc(ts[1..], t);
      if ts[0] != ts[1] {
        assert [ts[0]] + (CollapseAdjacent(ts[1..]) + [t]) == ([ts[0]] + CollapseAdjacent(ts[1..])) + [t];
      }
    }
  }

  /** The left `reduce` of the source computes the reference collapse. */
  lemma {:induction false} CollapsedMatchesReference(ts: seq<string>, n: nat)
    requires n <= |ts|
    ensures Collapsed(ts, n) == CollapseAdjacent(ts[..n])
  {
    if n == 0 {
    } else if n == 1 {
      assert ts[..1] == [ts[0]];
    } else {
      CollapsedMatchesReference(ts, n - 1);
      assert ts[..n] == ts[..n - 1] + [ts[n - 1]];
      CollapseAdjacentSnoc(ts[..n - 1], ts[n - 1]);
    }
  }

  /** `.slice(-6).slice(0, -1)`: at most the five terms before the last one. */
  function KeepRecent(c: seq<string>): (r: seq<string>)
    ensures |c| < 2 ==> r == []
    ensures |c| >= 2 ==> r == c[(if |c| >= 6 then |c| - 6 else 0)..|c| - 1]
    ensures |r| <= 5
    ensures forall t :: t in r ==> t in c
    ensures NoAdjacentDuplicates(c) ==> NoAdjacentDuplicates(r)
  {
    var tail := Js.SliceFrom(c, -6);
    Js.Slice(tail, 0, -1)
  }

  /** One more collapsed term makes the term before it the newest kept one. */
  lemma KeepRecentSnocLast(c: seq<string>, t: string)
    requires |c| > 0
    ensures var r := KeepRecent(c + [t]);
      |r| > 0 && r[|r| - 1] == c[|c| - 1]
  {
    var s := c + [t];
    assert s[|s| - 2] == c[|c| - 1];
  }

  /** A term other than the last one makes the last one the newest recent search. */
  lemma DistinctTermPushesLast(ts: seq<string>, t: string)
    requires |ts| > 0 && t != ts[|ts| - 1]
    ensures var r := KeepRecent(CollapseAdjacent(ts + [t]));
      |r| > 0 && r[|r| - 1] == ts[|ts| - 1]
  {
    CollapseAdjacentSnoc(ts, t);
    KeepRecentSnocLast(CollapseAdjacent(ts), t);
  }

  /** `getLastSearches(urls)`. */
  function GetLastSearches(urls: seq<string>): (r: seq<string>)
    ensures |r| <= 5
    ensures NoAdjacentDuplicates(r)
    ensures forall t :: t in r ==> t in Terms(urls)
  {
    var ts := Terms(urls);
    assert ts[..|ts|] == ts;
    KeepRecent(Collapsed(ts, |ts|))
  }

  /** The buttons are the last at most six collapsed terms without the final one. */
  lemma GetLastSearchesMatchesReference(urls: seq<string>)
    ensures GetLastSearches(urls) == KeepRecent(CollapseAdjacent(Terms(urls)))
  {
    var ts := Terms(urls);
    CollapsedMatchesReference(ts, |ts|);
    assert ts[..|ts|] == ts;
  }

  /** The terms of one more URL are the earlier terms and the term read back from it. */
  lemma TermsSnoc(urls: seq<string>, url: string)
    ensures Terms(urls + [url]) == Terms(urls) + [Urls.ExtractSearchTerm(url)]
  {
    assert (urls + [url])[|urls|] == url;
  }

  /** Repeating the last term leaves the recent searches as they were. */
  lemma RepeatLastTermKeepsRecent(ts: seq<string>, t: string)
    requires |ts| > 0 && t == ts[|ts| - 1]
    ensures KeepRecent(CollapseAdjacent(ts + [t])) == KeepRecent(CollapseAdjacent(ts))
  {
    CollapseAdjacentSnoc(ts, t);
  }

  /** A URL whose term is the term of the last URL leaves the recent searches as they were. */
  lemma RepeatLastKeepsLastSearches(urls: seq<string>, url: string)
    requires |urls| > 0
    ensures Urls.ExtractSearchTerm(url) == Urls.ExtractSearchTerm(urls[|urls| - 1]) ==>
      GetLastSearches(urls + [url]) == GetLastSearches(urls)
  {
    if Urls.ExtractSearchTerm(url) == Urls.ExtractSearchTerm(urls[|urls| - 1]) {
      TermsSnoc(urls, url);
      RepeatLastTermKeepsRecent(Terms(urls), Urls.ExtractSearchTerm(url));
      GetLastSearchesMatchesReference(urls);
      GetLastSearchesMatchesReference(urls + [url]);
    }
  }

  /** The URLs issued for a list of queries. */
  function UrlsOf(qs: seq<Urls.Query>): (urls: seq<string>)
    ensures |urls| == |qs|
    ensures forall i :: 0 <= i < |qs| ==> urls[i] == Urls.UrlOf(qs[i])
  {
    seq(|qs|, i requires 0 <= i < |qs| => Urls.UrlOf(qs[i]))
  }

  function TermsOf(qs: seq<Urls.Query>): (ts: seq<string>)
    ensures |ts| == |qs|
    ensures forall i :: 0 <= i < |qs| ==> ts[i] == qs[i].term
  {
    seq(|qs|, i requires 0 <= i < |qs| => qs[i].term)
  }

  predicate NoQuestionMarks(qs: seq<Urls.Query>)
  {
    forall i :: 0 <= i < |qs| ==> '?' !in qs[i].term
  }

  /** Reading back the URLs of '?'-free queries yields exactly their terms. */
  lemma TermsOfIssued(qs: seq<Urls.Query>)
    requires NoQuestionMarks(qs)
    ensures Terms(UrlsOf(qs)) == TermsOf(qs)
  {
    forall i | 0 <= i < |qs|
      ensures Terms(UrlsOf(qs))[i] == TermsOf(qs)[i]
    {
      Urls.RoundTrip(qs[i].term, qs[i].page);
    }
  }

  /** For '?'-free queries the recent searches are computed from the queries' own terms. */
  lemma LastSearchesOfIssued(qs: seq<Urls.Query>)
    requires NoQuestionMarks(qs)
    ensures GetLastSearches(UrlsOf(qs)) == KeepRecent(CollapseAdjacent(TermsOf(qs)))
  {
    TermsOfIssued(qs);
    GetLastSearchesMatchesReference(UrlsOf(qs));
  }

  /** A single issued URL leaves nothing to repeat. */
  lemma SingleUrlHasNoHistory(url: string)
    ensures GetLastSearches([url]) == []
  {
  }

  lemma CollapseRepeatedTerms()
    ensures KeepRecent(CollapseAdjacent(["a", "a", "b", "a", "c"])) == ["a", "b", "a"]
  {
    var ts: seq<string> := ["a", "a", "b", "a", "c"];
    assert ts[1..] == ["a", "b", "a", "c"];
    assert ts[1..][1..] == ["b", "a", "c"];
    assert ts[1..][1..][1..] == ["a", "c"];
    assert ts[1..][1..][1..][1..] == ["c"];
    var c := CollapseAdjacent(ts);
    assert c == ["a", "b", "a", "c"];
    assert c[0..3] == ["a", "b", "a"];
  }

  /** Queries whose terms are the given single letters carry no '?'. */
  lemma LetterTermsHaveNoQuestionMarks(qs: seq<Urls.Query>, letters: seq<string>)
    requires TermsOf(qs) == letters
    requires forall k :: 0 <= k < |letters| ==> |letters[k]| == 1 && 'a' <= letters[k][0] <= 'z'
    ensures NoQuestionMarks(qs)
  {
    forall i | 0 <= i < |qs| ensures '?' !in qs[i].term {
      assert qs[i].term == letters[i];
    }
  }

  /**
   Searches for a, a, b, a, c (on any pages) collapse to a, b, a, c; dropping
   the current c leaves a, b, a.
   */
  lemma RepeatedTermsExample(qs: seq<Urls.Query>)
    requires TermsOf(qs) == ["a", "a", "b", "a", "c"]
    ensures GetLastSearches(UrlsOf(qs)) == ["a", "b", "a"]
  {
    LetterTermsHaveNoQuestionMarks(qs, ["a", "a", "b", "a", "c"]);
    LastSearchesOfIssued(qs);
    CollapseRepeatedTerms();
  }

  lemma NoAdjacentDuplicatesTail(ts: seq<string>)
    requires |ts| > 0 && NoAdjacentDuplicates(ts)
    ensures NoAdjacentDuplicates(ts[1..])
  {
    forall i | 0 < i < |ts| - 1 ensures ts[1..][i - 1] != ts[1..][i] {
      assert ts[1..][i - 1] == ts[i] && ts[1..][i] == ts[i + 1];
    }
  }

  /** A list already free of adjacent repeats is its own collapse. */
  lemma {:induction false} CollapseKeepsDistinct(ts: seq<string>)
    requires NoAdjacentDuplicates(ts)
    ensures CollapseAdjacent(ts) == ts
  {
    if |ts| > 1 {
      NoAdjacentDuplicatesTail(ts);
      CollapseKeepsDistinct(ts[1..]);
      assert CollapseAdjacent(ts) == [ts[0]] + ts[1..];
      assert ts == [ts[0]] + ts[1..];
    }
  }

  /** Collapsing changes a list exactly when the list has two equal neighbours. */
  lemma {:induction false} CollapseFixedIff(ts: seq<string>)
    ensures CollapseAdjacent(ts) == ts <==> NoAdjacentDuplicates(ts)
  {
    if NoAdjacentDuplicates(ts) {
      CollapseKeepsDistinct(ts);
    } else {
      CollapsedMatchesReference(ts, |ts|);
      assert ts[..|ts|] == ts;
    }
  }

  /** Without adjacent repeats, the buttons are the terms before the last one, at most five. */
  lemma DistinctTermsShowRecent(ts: seq<string>)
    requires NoAdjacentDuplicates(ts)
    ensures |ts| < 2 ==> KeepRecent(CollapseAdjacent(ts)) == []
    ensures |ts| >= 2 ==> KeepRecent(CollapseAdjacent(ts)) == ts[(if |ts| >= 6 then |ts| - 6 else 0)..|ts| - 1]
  {
    CollapseKeepsDistinct(ts);
  }
}

=== FILE: items.dfy ===
/**
 A story as the search API returns it, and the two list operations both
 reducers and the comment counter apply to lists of stories: the `filter`
 that removes every story with a given `objectID`, and the `reduce` that sums
 `num_comments`.
 */
module Items {

  datatype Story = Story(
    objectID: string,
    url: string,
    title: string,
    author: string,
    numComments: int,
    points: int)

  /** `a` is `b` with some elements left out, the rest in their original order. */
  predicate IsSubsequence(a: seq<Story>, b: seq<Story>)
  {
    if |a| == 0 then true
    else if |b| == 0 then false
    else if a[0] == b[0] then IsSubsequence(a[1..], b[1..])
    else IsSubsequence(a, b[1..])
  }

  /** The set of `objectID`s present in a list. */
  function Ids(items: seq<Story>): set<string>
  {
    set i | 0 <= i < |items| :: items[i].objectID
  }

  lemma IdsCons(items: seq<Story>)
    requires |items| > 0
    ensures Ids(items) == {items[0].objectID} + Ids(items[1..])
  {
    forall x | x in Ids(items) ensures x in {items[0].objectID} + Ids(items[1..]) {
      var i :| 0 <= i < |items| && items[i].objectID == x;
      if i > 0 {
        assert items[1..][i - 1] == items[i];
      }
    }
    forall x | x in Ids(items[1..]) ensures x in Ids(items) {
      var i :| 0 <= i < |items[1..]| && items[1..][i].objectID == x;
      assert items[i + 1] == items[1..][i];
    }
  }

  /** How many stories of the list carry the given `objectID`. */
  function CountId(items: seq<Story>, id: string): (n: nat)
    ensures n <= |items|
    ensures n == 0 <==> id !in Ids(items)
  {
    if |items| == 0 then 0
    else
      IdsCons(items);
      (if items[0].objectID == id then 1 else 0) + CountId(items[1..], id)
  }

  /** No two stories of the list share an `objectID`. */
  predicate UniqueIds(items: seq<Story>)
  {
    forall i, j :: 0 <= i < j < |items| ==> items[i].objectID != items[j].objectID
  }

  /**
   `data.filter((story) => id !== story.objectID)`: exactly the stories of
   another `objectID`, in their original order.
   */
  function RemoveById(items: seq<Story>, id: string): (r: seq<Story>)
    ensures IsSubsequence(r, items)
    ensures forall i :: 0 <= i < |r| ==> r[i].objectID != id
    ensures |r| == |items| - CountId(items, id)
  {
    if |items| == 0 then []
    else
      var rest := RemoveById(items[1..], id);
      if items[0].objectID == id then
        assert IsSubsequence(rest, items) by { SubsequenceSkip(rest, items); }
        rest
      else
        var r := [items[0]] + rest;
        assert r[1..] == rest;
        r
  }

  /** Every story of another `objectID` survives removal as often as it occurred; none of the given one does. */
  lemma {:induction false} RemoveByIdContents(items: seq<Story>, id: string, x: Story)
    ensures multiset(RemoveById(items, id))[x] == if x.objectID == id then 0 else multiset(items)[x]
  {
    if |items| > 0 {
      var rest := RemoveById(items[1..], id);
      RemoveByIdContents(items[1..], id, x);
      assert items == [items[0]] + items[1..];
      if items[0].objectID == id {
        assert RemoveById(items, id) == rest;
      } else {
        assert RemoveById(items, id) == [items[0]] + rest;
      }
    }
  }

  /** Removal takes exactly the given `objectID` out of the set of ids present. */
  lemma {:induction false} RemoveByIdIds(items: seq<Story>, id: string)
    ensures Ids(RemoveById(items, id)) == Ids(items) - {id}
  {
    if |items| > 0 {
      RemoveByIdIds(items[1..], id);
      var rest := RemoveById(items[1..], id);
      IdsCons(items);
      if items[0].objectID != id {
        var r := [items[0]] + rest;
        assert r[1..] == rest;
        IdsCons(r);
      }
    }
  }

  lemma {:induction false} SubsequenceSkip(a: seq<Story>, b: seq<Story>)
    requires |b| > 0 && IsSubsequence(a, b[1..])
    ensures IsSubsequence(a, b)
  {
    if |a| > 0 && a[0] == b[0] {
      SubsequenceDropFront(a, b[1..]);
    }
  }

  lemma {:induction false} SubsequenceDropFront(a: seq<Story>, b: seq<Story>)
    requires |a| > 0 && IsSubsequence(a, b)
    ensures IsSubsequence(a[1..], b)
  {
    if a[0] == b[0] {
      if |a| > 1 {
        SubsequenceSkip(a[1..], b);
      }
    } else {
      SubsequenceDropFront(a, b[1..]);
      SubsequenceSkip(a[1..], b);
    }
  }

  /** Removing an `objectID` that is absent changes nothing, and removing a present one always changes the list. */
  lemma {:induction false} RemoveAbsentIsNoOp(items: seq<Story>, id: string)
    ensures RemoveById(items, id) == items <==> id !in Ids(items)
  {
    if id !in Ids(items) {
      RemoveAbsentKeepsAll(items, id);
    }
  }

  lemma {:induction false} RemoveAbsentKeepsAll(items: seq<Story>, id: string)
    requires id !in Ids(items)
    ensures RemoveById(items, id) == items
  {
    if |items| > 0 {
      IdsCons(items);
      RemoveAbsentKeepsAll(items[1..], id);
      assert items == [items[0]] + items[1..];
    }
  }

  /** Removing the same `objectID` twice is the same as removing it once. */
  lemma {:induction false} RemoveIdempotent(items: seq<Story>, id: string)
    ensures RemoveById(RemoveById(items, id), id) == RemoveById(items, id)
  {
    RemoveAbsentKeepsAll(RemoveById(items, id), id);
  }

  /** A list that starts with `x` has unique ids exactly when its rest does and does not hold `x`'s id. */
  lemma UniqueIdsCons(x: Story, rest: seq<Story>)
    ensures UniqueIds([x] + rest) <==> UniqueIds(rest) && x.objectID !in Ids(rest)
  {
    var s := [x] + rest;
    if UniqueIds(s) {
      forall i, j | 0 <= i < j < |rest| ensures rest[i].objectID != rest[j].objectID {
        assert rest[i] == s[i + 1] && rest[j] == s[j + 1];
      }
      forall k | 0 <= k < |rest| ensures rest[k].objectID != x.objectID {
        assert s[0] == x && s[k + 1] == rest[k];
      }
    }
    if UniqueIds(rest) && x.objectID !in Ids(rest) {
      forall i, j | 0 <= i < j < |s| ensures s[i].objectID != s[j].objectID {
        if i == 0 {
          assert s[j] == rest[j - 1];
          assert rest[j - 1].objectID in Ids(rest);
        } else {
          assert s[i] == rest[i - 1] && s[j] == rest[j - 1];
        }
      }
    }
  }

  /** Removal keeps a list free of repeated `objectID`s. */
  lemma {:induction false} RemovePreservesUniqueIds(items: seq<Story>, id: string)
    requires UniqueIds(items)
    ensures UniqueIds(RemoveById(items, id))
  {
    if |items| > 0 {
      assert items == [items[0]] + items[1..];
      UniqueIdsCons(items[0], items[1..]);
      RemovePreservesUniqueIds(items[1..], id);
      if items[0].objectID != id {
        var rest := RemoveById(items[1..], id);
        RemoveByIdIds(items[1..], id);
        UniqueIdsCons(items[0], rest);
      }
    }
  }

  /** Reference sum of `num_comments`, from the front. */
  function SumComments(items: seq<Story>): int
  {
    if |items| == 0 then 0 else items[0].numComments + SumComments(items[1..])
  }

  /** `items.reduce((result, value) => result + value.num_comments, acc)`, a left fold. */
  function FoldComments(items: seq<Story>, acc: int): (r: int)
    ensures r == acc + SumComments(items)
  {
    if |items| == 0 then acc
    else FoldComments(items[1..], acc + items[0].numComments)
  }

  /** The sum over two lists laid end to end is the sum of their sums. */
  lemma {:induction false} SumCommentsAppend(a: seq<Story>, b: seq<Story>)
    ensures SumComments(a + b) == SumComments(a) + SumComments(b)
  {
    if |a| == 0 {
      assert a + b == b;
    } else {
      assert (a + b)[1..] == a[1..] + b;
      SumCommentsAppend(a[1..], b);
    }
  }

  predicate NonNegativeComments(items: seq<Story>)
  {
    forall i :: 0 <= i < |items| ==> items[i].numComments >= 0
  }

  /** With no negative counts, dropping stories never raises the sum. */
  lemma {:induction false} RemoveNeverIncreasesSum(items: seq<Story>, id: string)
    requires NonNegativeComments(items)
    ensures SumComments(RemoveById(items, id)) <= SumComments(items)
    ensures SumComments(RemoveById(items, id)) >= 0
  {
    if |items| > 0 {
      RemoveNeverIncreasesSum(items[1..], id);
      var rest := RemoveById(items[1..], id);
      if items[0].objectID != id {
        assert ([items[0]] + rest)[1..] == rest;
      }
    }
  }
}

=== FILE: js.dfy ===
/**
 The few JavaScript built-ins the search app's core relies on, with the
 semantics of the ECMAScript standard library: `String.prototype.lastIndexOf`
 for one character, `String.prototype.indexOf`, `String.prototype.substring`
 (argument clamping and swapping), `String.prototype.replace` with a string
 pattern (first occurrence only), `Array.prototype.slice` (negative indices
 count from the end) and the decimal rendering of an integer inside a
 template literal.
 */
module Js {

  /** Index of the last occurrence of `c` in `s`, or -1 when there is none. */
  function LastIndexOf(s: string, c: char): (r: int)
    ensures -1 <= r < |s|
    decreases |s|
  {
    if |s| == 0 then -1
    else if s[|s| - 1] == c then |s| - 1
    else LastIndexOf(s[..|s| - 1], c)
  }

  /** `lastIndexOf` finds `c` at the index it returns and nowhere after it. */
  lemma {:induction false} LastIndexOfIsLast(s: string, c: char)
    ensures var r := LastIndexOf(s, c);
      && (r >= 0 ==> s[r] == c)
      && (forall j :: r < j < |s| ==> s[j] != c)
    decreases |s|
  {
    if |s| > 0 && s[|s| - 1] != c {
      LastIndexOfIsLast(s[..|s| - 1], c);
      assert forall j :: 0 <= j < |s| - 1 ==> s[..|s| - 1][j] == s[j];
    }
  }

  /** When the last `c` of `s` is the one just after `a`, `lastIndexOf` finds it. */
  lemma LastIndexOfSplit(a: string, c: char, b: string)
    requires c !in b
    ensures LastIndexOf(a + [c] + b, c) == |a|
  {
    var s := a + [c] + b;
    LastIndexOfIsLast(s, c);
    assert s[|a|] == c;
  }

  /** Text without `c` appended after `a` does not move the last `c`. */
  lemma {:induction false} LastIndexOfAppend(a: string, c: char, b: string)
    requires c !in b
    ensures LastIndexOf(a + b, c) == LastIndexOf(a, c)
    decreases |b|
  {
    if |b| > 0 {
      var b' := b[..|b| - 1];
      assert (a + b)[..|a + b| - 1] == a + b';
      LastIndexOfAppend(a, c, b');
    } else {
      assert a + b == a;
    }
  }

  /** Every occurrence of `c` is at or before the index `lastIndexOf` returns. */
  lemma LastIndexOfAtLeast(s: string, c: char, i: int)
    requires 0 <= i < |s| && s[i] == c
    ensures LastIndexOf(s, c) >= i
  {
    LastIndexOfIsLast(s, c);
  }

  /** `pat` occurs in `s` starting at index `i`. */
  predicate OccursAt(s: string, pat: string, i: int)
  {
    0 <= i && i + |pat| <= |s| && s[i..i + |pat|] == pat
  }

  /** Index of the first occurrence of `pat` in `s` at or after `from`, or -1. */
  function IndexOfFrom(s: string, pat: string, from: nat): (r: int)
    ensures r == -1 || (from <= r && OccursAt(s, pat, r))
    decreases |s| + 1 - from
  {
    if from + |pat| > |s| then -1
    else if s[from..from + |pat|] == pat then from
    else IndexOfFrom(s, pat, from + 1)
  }

  /** `String.prototype.indexOf`: the first occurrence of `pat`, or -1. */
  function IndexOf(s: string, pat: string): (r: int)
    ensures r == -1 || OccursAt(s, pat, r)
  {
    IndexOfFrom(s, pat, 0)
  }

  /**
   `String.prototype.replace` with a string pattern: only the FIRST occurrence
   of `pat` is replaced by `rep`; without an occurrence the string is unchanged.
   */
  function ReplaceFirst(s: string, pat: string, rep: string): (r: string)
    ensures IndexOf(s, pat) == -1 ==> r == s
    ensures IndexOf(s, pat) >= 0 ==>
      |r| == |s| - |pat| + |rep| && r[..IndexOf(s, pat)] == s[..IndexOf(s, pat)]
  {
    var i := IndexOf(s, pat);
    if i < 0 then s else s[..i] + rep + s[i + |pat|..]
  }

  /** A pattern at the very front of `s` is the occurrence `replace` removes. */
  lemma ReplaceFirstAtFront(pat: string, rest: string)
    ensures ReplaceFirst(pat + rest, pat, "") == rest
  {
    var s := pat + rest;
    assert s[0..|pat|] == pat;
    assert OccursAt(s, pat, 0);
    assert IndexOf(s, pat) == 0;
    assert s[|pat|..] == rest;
  }

  /** `replace` never brings in a character that neither the text nor the replacement holds. */
  lemma ReplaceFirstKeepsOut(s: string, pat: string, rep: string, c: char)
    ensures c !in s && c !in rep ==> c !in ReplaceFirst(s, pat, rep)
  {
    var i := IndexOf(s, pat);
    if i >= 0 {
      assert ReplaceFirst(s, pat, rep) == s[..i] + rep + s[i + |pat|..];
    }
  }

  function Clamp(x: int, len: nat): (r: nat)
    ensures r <= len
    ensures 0 <= x <= len ==> r == x
  {
    if x < 0 then 0 else if x > len then len else x
  }

  /**
   `String.prototype.substring(start, end)`: both arguments are clamped into
   `[0, |s|]` and swapped when `start > end`.
   */
  function Substring(s: string, start: int, end: int): (r: string)
    ensures 0 <= start <= end <= |s| ==> r == s[start..end]
    ensures 0 <= end <= start <= |s| ==> r == s[end..start]
    ensures |r| <= |s|
  {
    var a := Clamp(start, |s|);
    var b := Clamp(end, |s|);
    if a <= b then s[a..b] else s[b..a]
  }

  /** Text cut out after the last `c` of `s`, up to a later index, holds no `c`. */
  lemma SubstringAfterLast(s: string, c: char, end: int)
    ensures LastIndexOf(s, c) < end ==> c !in Substring(s, LastIndexOf(s, c) + 1, end)
  {
    LastIndexOfIsLast(s, c);
  }

  /** The index `Array.prototype.slice` uses for a possibly negative argument. */
  function RelativeIndex(x: int, len: nat): (r: nat)
    ensures r <= len
  {
    if x < 0 then (if len + x < 0 then 0 else len + x)
    else if x > len then len else x
  }

  /** `Array.prototype.slice(start, end)`. */
  function Slice<T>(s: seq<T>, start: int, end: int): (r: seq<T>)
  {
    var a := RelativeIndex(start, |s|);
    var b := RelativeIndex(end, |s|);
    if a <= b then s[a..b] else []
  }

  /** `Array.prototype.slice(start)`: the end defaults to the length. */
  function SliceFrom<T>(s: seq<T>, start: int): (r: seq<T>)
  {
    Slice(s, start, |s|)
  }

  predicate IsDigit(c: char)
  {
    '0' <= c <= '9'
  }

  function DigitChar(d: nat): (c: char)
    requires d < 10
    ensures IsDigit(c)
  {
    "0123456789"[d]
  }

  /** Decimal rendering of a natural number, most significant digit first. */
  function NatToString(n: nat): (r: string)
    ensures |r| > 0
    ensures forall i :: 0 <= i < |r| ==> IsDigit(r[i])
  {
    if n < 10 then [DigitChar(n)] else NatToString(n / 10) + [DigitChar(n % 10)]
  }

  /** An integer interpolated into a template literal: a '-' sign, then the digits. */
  function IntToString(n: int): (r: string)
    ensures |r| > 0
    ensures forall i :: 0 <= i < |r| ==> IsDigit(r[i]) || (i == 0 && r[i] == '-')
    ensures r[0] == '-' <==> n < 0
  {
    if n < 0 then "-" + NatToString(-n) else NatToString(n)
  }
}

=== FILE: legacy_stories.dfy ===
/**
 The earlier `storiesReducer` kept beside the app: its state has no page, and
 STORIES_FETCH_SUCCESS carries the bare list of hits, which always replaces
 the shown stories. The other three actions behave as in the current reducer.
 */
module LegacyStories {
  import Items
  import Stories

  datatype State = State(data: seq<Items.Story>, isLoading: bool, isError: bool)

  datatype Action =
    | FetchInit
    | FetchSuccess(list: seq<Items.Story>)
    | FetchFailure
    | RemoveStory(item: Items.Story)

  /** `storiesReducer(state, action)` of the earlier version. */
  function Reduce(state: State, action: Action): (next: State)
    ensures action.FetchInit? ==> next.isLoading && !next.isError && next.data == state.data
    ensures action.FetchSuccess? ==> !next.isLoading && !next.isError && next.data == action.list
    ensures action.FetchFailure? ==> !next.isLoading && next.isError && next.data == state.data
    ensures action.RemoveStory? ==>
      && next.data == Items.RemoveById(state.data, action.item.objectID)
      && next.isLoading == state.isLoading && next.isError == state.isError
  {
    match action
    case FetchInit => state.(isLoading := true, isError := false)
    case FetchSuccess(list) => state.(isLoading := false, isError := false, data := list)
    case FetchFailure => state.(isLoading := false, isError := true)
    case RemoveStory(item) => state.(data := Items.RemoveById(state.data, item.objectID))
  }

  /** What a success leaves on screen does not depend on what was there before. */
  lemma SuccessForgetsPreviousData(s1: State, s2: State, list: seq<Items.Story>)
    ensures Reduce(s1, FetchSuccess(list)) == Reduce(s2, FetchSuccess(list))
  {
  }

  /** Dismissing a story twice is the same as dismissing it once. */
  lemma RemoveStoryIdempotent(state: State, item: Items.Story)
    ensures Reduce(Reduce(state, RemoveStory(item)), RemoveStory(item)) == Reduce(state, RemoveStory(item))
  {
    Items.RemoveIdempotent(state.data, item.objectID);
  }

  /** `getSumComments(stories)` of the earlier version, without its logging. */
  function GetSumComments(state: State): (r: int)
    ensures r == Items.SumComments(state.data)
  {
    Items.FoldComments(state.data, 0)
  }

  /** The earlier state is the current state without its page. */
  function Forget(state: Stories.State): State
  {
    State(state.data, state.isLoading, state.isError)
  }

  /** The earlier action that corresponds to a current one. */
  function Translate(action: Stories.Action): Action
  {
    match action
    case FetchInit => FetchInit
    case FetchSuccess(payload) => FetchSuccess(payload.list)
    case FetchFailure => FetchFailure
    case RemoveStory(item) => RemoveStory(item)
  }

  /** The two reducers agree on every action except a success for a page other than 0. */
  lemma ReducersAgreeExceptLaterPages(state: Stories.State, action: Stories.Action)
    requires !(action.FetchSuccess? && action.payload.page != 0)
    ensures Forget(Stories.Reduce(state, action)) == Reduce(Forget(state), Translate(action))
  {
  }

  /** On a later page with stories already shown, the current reducer keeps them and the earlier one drops them. */
  lemma ReducersDivergeOnLaterPages(state: Stories.State, payload: Stories.Payload)
    requires payload.page != 0 && |state.data| > 0
    ensures Forget(Stories.Reduce(state, Stories.FetchSuccess(payload)))
         != Reduce(Forget(state), Translate(Stories.FetchSuccess(payload)))
    ensures |Stories.Reduce(state, Stories.FetchSuccess(payload)).data|
         == |Reduce(Forget(state), Translate(Stories.FetchSuccess(payload))).data| + |state.data|
  {
  }
}

=== FILE: session.dfy ===
/**
 The app's list of issued request URLs and the fetch cycle it drives. The
 list starts with one URL for the remembered term at page 0 and only ever
 grows: a submitted search and a click on a recent-search button append the
 URL for that term at page 0, and "More..." re-issues the term read back from
 the last URL at the next page. Every change of the list runs one fetch cycle
 for its last URL: STORIES_FETCH_INIT, then STORIES_FETCH_SUCCESS with the
 hits and page the API reports or STORIES_FETCH_FAILURE.
 */
module Session {
  import Urls
  import History
  import Items
  import Stories

  /** `[getUrl(searchTerm, 0)]`, the list the app starts with. */
  function InitialUrls(term: string): (urls: seq<string>)
    ensures |urls| == 1
    ensures '?' !in term ==> Urls.ExtractSearchTerm(urls[0]) == term
    ensures History.GetLastSearches(urls) == []
  {
    var urls := [Urls.GetUrl(term, 0)];
    Urls.RoundTripIfNoQuestionMark(term, 0);
    History.SingleUrlHasNoHistory(urls[0]);
    urls
  }

  /** `handleSearch(searchTerm, page)`: one URL appended, the earlier ones untouched. */
  function HandleSearch(urls: seq<string>, term: string, page: int): (r: seq<string>)
    ensures |r| == |urls| + 1 && r[..|urls|] == urls
    ensures '?' !in term ==> Urls.ExtractSearchTerm(r[|urls|]) == term
  {
    Urls.RoundTripIfNoQuestionMark(term, page);
    urls + [Urls.GetUrl(term, page)]
  }

  /** `handleLastSearch(searchTerm)`: repeat a recent search from its first page. */
  function HandleLastSearch(urls: seq<string>, term: string): (r: seq<string>)
    ensures |r| == |urls| + 1 && r[..|urls|] == urls
    ensures '?' !in term ==> Urls.ExtractSearchTerm(r[|urls|]) == term
  {
    HandleSearch(urls, term, 0)
  }

  /**
   `handleMore()`: the term of the last URL, at the page after the one shown.
   The list is never empty in the app; on an empty list the source would fail.
   */
  function HandleMore(urls: seq<string>, storiesPage: int): (r: seq<string>)
    requires |urls| > 0
    ensures |r| == |urls| + 1 && r[..|urls|] == urls
  {
    var lastUrl := urls[|urls| - 1];
    HandleSearch(urls, Urls.ExtractSearchTerm(lastUrl), storiesPage + 1)
  }

  /** Issuing a query appends its URL to the URLs of the earlier queries. */
  lemma IssueAppendsUrl(qs: seq<Urls.Query>, q: Urls.Query)
    ensures HandleSearch(History.UrlsOf(qs), q.term, q.page) == History.UrlsOf(qs + [q])
    ensures History.TermsOf(qs + [q]) == History.TermsOf(qs) + [q.term]
    ensures History.NoQuestionMarks(qs) && '?' !in q.term ==> History.NoQuestionMarks(qs + [q])
  {
    assert History.UrlsOf(qs + [q]) == History.UrlsOf(qs) + [Urls.UrlOf(q)];
  }

  /** For '?'-free queries, "More..." issues the last query's term at the following page. */
  lemma MoreReissuesLastTerm(qs: seq<Urls.Query>, storiesPage: int)
    requires |qs| > 0 && History.NoQuestionMarks(qs)
    ensures HandleMore(History.UrlsOf(qs), storiesPage)
         == History.UrlsOf(qs + [Urls.Query(qs[|qs| - 1].term, storiesPage + 1)])
  {
    var last := qs[|qs| - 1];
    Urls.RoundTrip(last.term, last.page);
    IssueAppendsUrl(qs, Urls.Query(last.term, storiesPage + 1));
  }

  /**
   "More..." repeats the term read back from the last URL, so the
   recent-search buttons stay as they were, whatever the terms hold.
   */
  lemma MoreKeepsLastSearches(qs: seq<Urls.Query>, storiesPage: int)
    requires |qs| > 0
    ensures History.GetLastSearches(HandleMore(History.UrlsOf(qs), storiesPage))
         == History.GetLastSearches(History.UrlsOf(qs))
  {
    var urls := History.UrlsOf(qs);
    var last := qs[|qs| - 1];
    var term := Urls.ExtractSearchTerm(urls[|urls| - 1]);
    Urls.ExtractedHasNoQuestionMark(last.term, last.page);
    Urls.RoundTrip(term, storiesPage + 1);
    History.RepeatLastKeepsLastSearches(urls, Urls.GetUrl(term, storiesPage + 1));
  }

  /**
   A search whose term reads back differently from the active one makes the
   active term the newest recent-search button, whatever the terms hold.
   */
  lemma NewSearchPushesActiveTerm(urls: seq<string>, term: string, page: int)
    requires |urls| > 0
    ensures var active := Urls.ExtractSearchTerm(urls[|urls| - 1]);
      var recent := History.GetLastSearches(HandleSearch(urls, term, page));
      Urls.ExtractSearchTerm(Urls.GetUrl(term, page)) != active ==>
        |recent| > 0 && recent[|recent| - 1] == active
  {
    var url := Urls.GetUrl(term, page);
    var ts := History.Terms(urls);
    if Urls.ExtractSearchTerm(url) != Urls.ExtractSearchTerm(urls[|urls| - 1]) {
      History.TermsSnoc(urls, url);
      History.GetLastSearchesMatchesReference(urls + [url]);
      History.DistinctTermPushesLast(ts, Urls.ExtractSearchTerm(url));
    }
  }

  /** Every recent-search button holds a term that was issued, so it holds no '?'. */
  lemma ButtonTermsWereIssued(qs: seq<Urls.Query>)
    requires History.NoQuestionMarks(qs)
    ensures forall t :: t in History.GetLastSearches(History.UrlsOf(qs)) ==> t in History.TermsOf(qs) && '?' !in t
  {
    History.TermsOfIssued(qs);
    forall t | t in History.TermsOf(qs) ensures '?' !in t {
      var i :| 0 <= i < |qs| && History.TermsOf(qs)[i] == t;
    }
  }

  /** Repeating an issued term appends the URL of that term at page 0 and keeps the queries '?'-free. */
  lemma RepeatIssuedTerm(qs: seq<Urls.Query>, term: string)
    requires History.NoQuestionMarks(qs) && term in History.TermsOf(qs)
    ensures HandleLastSearch(History.UrlsOf(qs), term) == History.UrlsOf(qs + [Urls.Query(term, 0)])
    ensures History.NoQuestionMarks(qs + [Urls.Query(term, 0)])
  {
    var i :| 0 <= i < |qs| && History.TermsOf(qs)[i] == term;
    IssueAppendsUrl(qs, Urls.Query(term, 0));
  }

  /** What the API call ended with. */
  datatype Response =
    | Hits(list: seq<Items.Story>, page: int)
    | TransportError

  /** One fetch cycle for the last URL: the init dispatch, then the outcome's dispatch. */
  function FetchCycle(state: Stories.State, response: Response): (next: Stories.State)
    ensures !next.isLoading
    ensures next.isError <==> response.TransportError?
    ensures response.TransportError? ==> next.data == state.data && next.page == state.page
    ensures response.Hits? ==> next.page == response.page
    ensures response.Hits? && response.page == 0 ==> next.data == response.list
    ensures response.Hits? && response.page != 0 ==> next.data == state.data + response.list
  {
    var loading := Stories.Reduce(state, Stories.FetchInit);
    match response
    case Hits(list, page) => Stories.Reduce(loading, Stories.FetchSuccess(Stories.Payload(list, page)))
    case TransportError => Stories.Reduce(loading, Stories.FetchFailure)
  }

  /** The first fetch for the remembered term: two hits on page 0 give the sum of their comments. */
  lemma FirstFetchSumsComments(x: Items.Story, y: Items.Story)
    ensures var next := FetchCycle(Stories.Initial, Hits([x, y], 0));
      && next.data == [x, y]
      && Stories.GetSumComments(next) == x.numComments + y.numComments
  {
    assert Items.SumComments([x, y]) == x.numComments + y.numComments by {
      assert [y][1..] == [];
      assert Items.SumComments([y]) == y.numComments;
      assert [x, y][1..] == [y];
    }
  }
}

=== FILE: sorting.dfy ===
/**
 The sort selection of the story list. The `SORTS` table maps a key to a
 function of the list: NONE leaves it as it is, TITLE and AUTHOR sort
 ascending by that field, COMMENTS and POINTS sort ascending by that field and
 then reverse. `handleSort` selects a key and turns `isReverse` on only when
 the key chosen is already selected and not reversed; the list shown is the
 chosen function's result, reversed once more when `isReverse` is set.
 `sortBy` is a stable ascending sort: items with equal keys keep their order.
 */
module Sorting {
  import Items

  datatype Option<T> = None | Some(value: T)

  datatype SortState = SortState(sortKey: string, isReverse: bool)

  /** The sort `useState` starts with. */
  const InitialSort: SortState := SortState("NONE", false)

  /** The keys of the `SORTS` table. */
  const SortKeys: set<string> := {"NONE", "TITLE", "AUTHOR", "COMMENTS", "POINTS"}

  /** `handleSort(sortKey)`. */
  function HandleSort(sort: SortState, key: string): (next: SortState)
    ensures next.sortKey == key
    ensures key != sort.sortKey ==> !next.isReverse
    ensures key == sort.sortKey ==> next.isReverse != sort.isReverse
  {
    SortState(key, sort.sortKey == key && !sort.isReverse)
  }

  /** Choosing the selected key twice restores the sort; choosing a new key twice leaves it reversed. */
  lemma ChooseTwice(sort: SortState, key: string)
    ensures key == sort.sortKey ==> HandleSort(HandleSort(sort, key), key) == sort
    ensures key != sort.sortKey ==> HandleSort(HandleSort(sort, key), key) == SortState(key, true)
  {
  }

  /** The column headers and the key each one passes to `handleSort`. */
  datatype Header = TitleHeader | AuthorHeader | CommentsHeader | PointsHeader

  function HeaderKey(h: Header): (key: string)
    ensures key in SortKeys && key != "NONE"
  {
    match h
    case TitleHeader => "TITLE"
    case AuthorHeader => "AUTHOR"
    case CommentsHeader => "COMMENTS"
    case PointsHeader => "POINTS"
  }

  /** The sort after a sequence of header clicks. */
  function ApplyClicks(sort: SortState, clicks: seq<Header>): SortState
    decreases |clicks|
  {
    if |clicks| == 0 then sort else ApplyClicks(HandleSort(sort, HeaderKey(clicks[0])), clicks[1..])
  }

  /** A sort the list can hold: a key of the table, and NONE never reversed. */
  predicate KnownSort(sort: SortState)
  {
    sort.sortKey in SortKeys && (sort.sortKey == "NONE" ==> !sort.isReverse)
  }

  // ---------------------------------------------------------------------------
  // Keys and their order

  /** A sort key as JavaScript compares it: strings by character codes, numbers numerically. */
  datatype Key = Text(s: string) | Num(n: int)

  /** The story field a `sortBy` reads. */
  datatype Field = Title | Author | Comments | Points

  function KeyOf(f: Field, x: Items.Story): Key
  {
    match f
    case Title => Text(x.title)
    case Author => Text(x.author)
    case Comments => Num(x.numComments)
    case Points => Num(x.points)
  }

  /** Lexicographic order on strings; a proper prefix comes first. */
  predicate LexLe(a: string, b: string)
  {
    |a| == 0 || (|b| > 0 && (a[0] < b[0] || (a[0] == b[0] && LexLe(a[1..], b[1..]))))
  }

  lemma {:induction false} LexLeTotal(a: string, b: string)
    ensures LexLe(a, b) || LexLe(b, a)
  {
    if |a| > 0 && |b| > 0 && a[0] == b[0] {
      LexLeTotal(a[1..], b[1..]);
    }
  }

  lemma {:induction false} LexLeReflexive(a: string)
    ensures LexLe(a, a)
  {
    if |a| > 0 {
      LexLeReflexive(a[1..]);
    }
  }

  lemma {:induction false} LexLeTransitive(a: string, b: string, c: string)
    requires LexLe(a, b) && LexLe(b, c)
    ensures LexLe(a, c)
  {
    if |a| > 0 && a[0] == b[0] && b[0] == c[0] {
      LexLeTransitive(a[1..], b[1..], c[1..]);
    }
  }

  /** The order `sortBy` uses; keys of one field are all strings or all numbers. */
  predicate KeyLe(a: Key, b: Key)
  {
    match (a, b)
    case (Num(m), Num(n)) => m <= n
    case (Text(s), Text(t)) => LexLe(s, t)
    case (Num(_), Text(_)) => true
    case (Text(_), Num(_)) => false
  }

  lemma KeyLeTotal(a: Key, b: Key)
    ensures KeyLe(a, b) || KeyLe(b, a)
  {
    if a.Text? && b.Text? {
      LexLeTotal(a.s, b.s);
    }
  }

  lemma KeyLeReflexive(a: Key)
    ensures KeyLe(a, a)
  {
    if a.Text? {
      LexLeReflexive(a.s);
    }
  }

  lemma KeyLeTransitive(a: Key, b: Key, c: Key)
    requires KeyLe(a, b) && KeyLe(b, c)
    ensures KeyLe(a, c)
  {
    if a.Text? && b.Text? && c.Text? {
      LexLeTransitive(a.s, b.s, c.s);
    }
  }

  /** `x` sorts strictly before `y` by field `f`. */
  predicate Before(f: Field, x: Items.Story, y: Items.Story)
  {
    !KeyLe(KeyOf(f, y), KeyOf(f, x))
  }

  /** Ascending by field `f`. */
  predicate Ascending(s: seq<Items.Story>, f: Field)
  {
    forall i :: 0 < i < |s| ==> KeyLe(KeyOf(f, s[i - 1]), KeyOf(f, s[i]))
  }

  /** Descending by field `f`. */
  predicate Descending(s: seq<Items.Story>, f: Field)
  {
    forall i :: 0 < i < |s| ==> KeyLe(KeyOf(f, s[i]), KeyOf(f, s[i - 1]))
  }

  // ---------------------------------------------------------------------------
  // The stable sort

  lemma AscendingTail(t: seq<Items.Story>, f: Field)
    requires Ascending(t, f) && |t| > 0
    ensures Ascending(t[1..], f)
  {
    forall i | 0 < i < |t| - 1 ensures KeyLe(KeyOf(f, t[1..][i - 1]), KeyOf(f, t[1..][i])) {
      assert t[1..][i - 1] == t[i] && t[1..][i] == t[i + 1];
    }
  }

  /** Insert `x` after every element whose key is not greater than its own. */
  function Insert(t: seq<Items.Story>, x: Items.Story, f: Field): (r: seq<Items.Story>)
    ensures |r| == |t| + 1
    ensures r[0] == x || (|t| > 0 && r[0] == t[0])
  {
    if |t| == 0 then [x]
    else if Before(f, x, t[0]) then [x] + t
    else [t[0]] + Insert(t[1..], x, f)
  }

  /** Insertion adds exactly the one story and loses none. */
  lemma {:induction false} InsertPermutes(t: seq<Items.Story>, x: Items.Story, f: Field)
    ensures multiset(Insert(t, x, f)) == multiset(t) + multiset{x}
  {
    if |t| > 0 && !Before(f, x, t[0]) {
      InsertPermutes(t[1..], x, f);
      assert t == [t[0]] + t[1..];
    }
  }

  lemma {:induction false} InsertAscending(t: seq<Items.Story>, x: Items.Story, f: Field)
    requires Ascending(t, f)
    ensures Ascending(Insert(t, x, f), f)
  {
    if |t| > 0 {
      KeyLeTotal(KeyOf(f, x), KeyOf(f, t[0]));
      if !Before(f, x, t[0]) {
        AscendingTail(t, f);
        InsertAscending(t[1..], x, f);
        var rest := Insert(t[1..], x, f);
        var r := [t[0]] + rest;
        forall i | 0 < i < |r| ensures KeyLe(KeyOf(f, r[i - 1]), KeyOf(f, r[i])) {
          if i > 1 {
            assert r[i - 1] == rest[i - 2] && r[i] == rest[i - 1];
          }
        }
      }
    }
  }

  /** `sortBy(list, field)`: insertion of each element in list order. */
  function SortBy(s: seq<Items.Story>, f: Field): (r: seq<Items.Story>)
    ensures |r| == |s|
  {
    if |s| == 0 then []
    else Insert(SortBy(s[..|s| - 1], f), s[|s| - 1], f)
  }

  /** Sorting keeps every story exactly as often as it occurs. */
  lemma {:induction false} SortByPermutes(s: seq<Items.Story>, f: Field)
    ensures multiset(SortBy(s, f)) == multiset(s)
  {
    if |s| > 0 {
      var init, x := s[..|s| - 1], s[|s| - 1];
      assert s == init + [x];
      SortByPermutes(init, f);
      InsertPermutes(SortBy(init, f), x, f);
    }
  }

  lemma {:induction false} SortByAscending(s: seq<Items.Story>, f: Field)
    ensures Ascending(SortBy(s, f), f)
  {
    if |s| > 0 {
      SortByAscending(s[..|s| - 1], f);
      InsertAscending(SortBy(s[..|s| - 1], f), s[|s| - 1], f);
    }
  }

  /** The stories whose key for field `f` is `k`, in list order. */
  function WithKey(s: seq<Items.Story>, f: Field, k: Key): seq<Items.Story>
  {
    if |s| == 0 then []
    else (if KeyOf(f, s[0]) == k then [s[0]] else []) + WithKey(s[1..], f, k)
  }

  lemma {:induction false} WithKeyAppend(a: seq<Items.Story>, b: seq<Items.Story>, f: Field, k: Key)
    ensures WithKey(a + b, f, k) == WithKey(a, f, k) + WithKey(b, f, k)
  {
    if |a| == 0 {
      assert a + b == b;
    } else {
      assert a + b == [a[0]] + (a[1..] + b);
      assert a == [a[0]] + a[1..];
      WithKeyAppend(a[1..], b, f, k);
      ConsWithKeyShift(a[0], a[1..] + b, a[1..], WithKey(b, f, k), f, k);
    }
  }

  /** In an ascending list that starts above `x`, no element shares `x`'s key. */
  lemma {:induction false} NoneEqualAbove(t: seq<Items.Story>, x: Items.Story, f: Field)
    requires Ascending(t, f) && |t| > 0 && Before(f, x, t[0])
    ensures WithKey(t, f, KeyOf(f, x)) == []
  {
    KeyLeReflexive(KeyOf(f, x));
    if |t| > 1 {
      if KeyLe(KeyOf(f, t[1]), KeyOf(f, x)) {
        KeyLeTransitive(KeyOf(f, t[0]), KeyOf(f, t[1]), KeyOf(f, x));
      }
      AscendingTail(t, f);
      NoneEqualAbove(t[1..], x, f);
    }
  }

  /** The stories of key `k` in a list that starts with `y`. */
  lemma WithKeyCons(y: Items.Story, s: seq<Items.Story>, f: Field, k: Key)
    ensures WithKey([y] + s, f, k) == (if KeyOf(f, y) == k then [y] else []) + WithKey(s, f, k)
  {
    assert ([y] + s)[1..] == s;
  }

  /** `x` placed in front of an ascending list that starts above it comes after every story of its key. */
  lemma PrependWithKey(t: seq<Items.Story>, x: Items.Story, f: Field, k: Key)
    requires Ascending(t, f) && |t| > 0 && Before(f, x, t[0])
    ensures WithKey([x] + t, f, k) == WithKey(t, f, k) + (if KeyOf(f, x) == k then [x] else [])
  {
    WithKeyCons(x, t, f, k);
    if KeyOf(f, x) == k {
      NoneEqualAbove(t, x, f);
      assert [x] + [] == [] + [x];
    } else {
      assert [] + WithKey(t, f, k) == WithKey(t, f, k) + [];
    }
  }

  lemma {:induction false} InsertWithKey(t: seq<Items.Story>, x: Items.Story, f: Field, k: Key)
    requires Ascending(t, f)
    ensures WithKey(Insert(t, x, f), f, k)
         == WithKey(t, f, k) + (if KeyOf(f, x) == k then [x] else [])
  {
    var xs: seq<Items.Story> := if KeyOf(f, x) == k then [x] else [];
    if |t| == 0 {
      WithKeyCons(x, [], f, k);
      assert [x] + [] == [x];
    } else if Before(f, x, t[0]) {
      assert Insert(t, x, f) == [x] + t;
      PrependWithKey(t, x, f, k);
    } else {
      var rest := Insert(t[1..], x, f);
      assert Insert(t, x, f) == [t[0]] + rest;
      AscendingTail(t, f);
      InsertWithKey(t[1..], x, f, k);
      ConsWithKeyShift(t[0], rest, t[1..], xs, f, k);
      assert t == [t[0]] + t[1..];
    }
  }

  /** Putting the same story in front of two lists keeps a relation between their stories of key `k`. */
  lemma ConsWithKeyShift(y: Items.Story, a: seq<Items.Story>, b: seq<Items.Story>, xs: seq<Items.Story>, f: Field, k: Key)
    requires WithKey(a, f, k) == WithKey(b, f, k) + xs
    ensures WithKey([y] + a, f, k) == WithKey([y] + b, f, k) + xs
  {
    var ys: seq<Items.Story> := if KeyOf(f, y) == k then [y] else [];
    WithKeyCons(y, a, f, k);
    WithKeyCons(y, b, f, k);
    assert ys + (WithKey(b, f, k) + xs) == (ys + WithKey(b, f, k)) + xs;
  }

  lemma WithKeySnoc(init: seq<Items.Story>, x: Items.Story, f: Field, k: Key)
    ensures WithKey(init + [x], f, k) == WithKey(init, f, k) + (if KeyOf(f, x) == k then [x] else [])
  {
    WithKeyAppend(init, [x], f, k);
    WithKeyCons(x, [], f, k);
    assert [x] + [] == [x];
  }

  /** Stability: the stories sharing any one key appear in the sorted list in their original order. */
  lemma {:induction false} SortByStable(s: seq<Items.Story>, f: Field, k: Key)
    ensures WithKey(SortBy(s, f), f, k) == WithKey(s, f, k)
  {
    if |s| > 0 {
      var init, x := s[..|s| - 1], s[|s| - 1];
      assert s == init + [x];
      var sorted := SortBy(init, f);
      SortByStable(init, f, k);
      SortByAscending(init, f);
      InsertWithKey(sorted, x, f, k);
      WithKeySnoc(init, x, f, k);
    }
  }

  // ---------------------------------------------------------------------------
  // Reversal and the displayed list

  /** `Array.prototype.reverse` on a fresh array. */
  function Reverse(s: seq<Items.Story>): (r: seq<Items.Story>)
    ensures |r| == |s|
    ensures forall i :: 0 <= i < |s| ==> r[i] == s[|s| - 1 - i]
  {
    if |s| == 0 then [] else Reverse(s[1..]) + [s[0]]
  }

  lemma {:induction false} ReversePermutes(s: seq<Items.Story>)
    ensures multiset(Reverse(s)) == multiset(s)
  {
    if |s| > 0 {
      ReversePermutes(s[1..]);
      assert s == [s[0]] + s[1..];
    }
  }

  lemma ReverseTwice(s: seq<Items.Story>)
    ensures Reverse(Reverse(s)) == s
  {
  }

  /** Reversing an ascending list gives a descending one. */
  lemma ReverseAscendingIsDescending(s: seq<Items.Story>, f: Field)
    requires Ascending(s, f)
    ensures Descending(Reverse(s), f)
  {
    var r := Reverse(s);
    forall i | 0 < i < |r| ensures KeyLe(KeyOf(f, r[i]), KeyOf(f, r[i - 1])) {
      assert r[i] == s[|s| - 1 - i] && r[i - 1] == s[|s| - 1 - i + 1];
    }
  }

  /** `SORTS[sortKey](list)`; a key outside the table has no function, and calling it fails. */
  function SortFunction(key: string, list: seq<Items.Story>): (r: Option<seq<Items.Story>>)
    ensures r.Some? <==> key in SortKeys
  {
    if key == "NONE" then Some(list)
    else if key == "TITLE" then Some(SortBy(list, Title))
    else if key == "AUTHOR" then Some(SortBy(list, Author))
    else if key == "COMMENTS" then Some(Reverse(SortBy(list, Comments)))
    else if key == "POINTS" then Some(Reverse(SortBy(list, Points)))
    else None
  }

  /** `sortedList`: the chosen sort's result, reversed when `isReverse` is set. */
  function SortedList(sort: SortState, list: seq<Items.Story>): (r: Option<seq<Items.Story>>)
    ensures r.Some? <==> sort.sortKey in SortKeys
  {
    match SortFunction(sort.sortKey, list)
    case None => None
    case Some(sorted) => if sort.isReverse then Some(Reverse(sorted)) else Some(sorted)
  }

  /** Every sort, reversed or not, shows the same stories: none lost, none repeated. */
  lemma SortedListPermutes(sort: SortState, list: seq<Items.Story>)
    requires sort.sortKey in SortKeys
    ensures multiset(SortedList(sort, list).value) == multiset(list)
  {
    var f := if sort.sortKey == "TITLE" then Title
             else if sort.sortKey == "AUTHOR" then Author
             else if sort.sortKey == "COMMENTS" then Comments
             else Points;
    SortByPermutes(list, f);
    ReversePermutes(SortBy(list, f));
    ReversePermutes(list);
    var sorted := SortFunction(sort.sortKey, list).value;
    ReversePermutes(sorted);
  }

  /** Under NONE and not reversed the list is shown exactly as given. */
  lemma NoneShowsListAsGiven(list: seq<Items.Story>)
    ensures SortedList(InitialSort, list) == Some(list)
  {
  }

  /** With `isReverse` set, the list shown is exactly the reverse of the list shown without it. */
  lemma ReverseFlagReversesDisplay(key: string, list: seq<Items.Story>)
    requires key in SortKeys
    ensures SortedList(SortState(key, true), list).value
         == Reverse(SortedList(SortState(key, false), list).value)
  {
  }

  /** TITLE and AUTHOR show ascending order, stable among equal keys. */
  lemma TextSortsAscending(list: seq<Items.Story>, k: Key)
    ensures Ascending(SortedList(SortState("TITLE", false), list).value, Title)
    ensures Ascending(SortedList(SortState("AUTHOR", false), list).value, Author)
    ensures WithKey(SortedList(SortState("TITLE", false), list).value, Title, k) == WithKey(list, Title, k)
    ensures WithKey(SortedList(SortState("AUTHOR", false), list).value, Author, k) == WithKey(list, Author, k)
  {
    SortByAscending(list, Title);
    SortByAscending(list, Author);
    SortByStable(list, Title, k);
    SortByStable(list, Author, k);
  }

  /** COMMENTS and POINTS show descending order; reversed, they show the stable ascending sort. */
  lemma NumberSortsDescending(list: seq<Items.Story>)
    ensures Descending(SortedList(SortState("COMMENTS", false), list).value, Comments)
    ensures Descending(SortedList(SortState("POINTS", false), list).value, Points)
    ensures SortedList(SortState("COMMENTS", true), list).value == SortBy(list, Comments)
    ensures SortedList(SortState("POINTS", true), list).value == SortBy(list, Points)
  {
    SortByAscending(list, Comments);
    SortByAscending(list, Points);
    ReverseAscendingIsDescending(SortBy(list, Comments), Comments);
    ReverseAscendingIsDescending(SortBy(list, Points), Points);
    ReverseTwice(SortBy(list, Comments));
    ReverseTwice(SortBy(list, Points));
  }

  /** Header clicks from a known sort reach only known sorts, so a sort function always exists. */
  lemma {:induction false} ClicksKeepSortKnown(sort: SortState, clicks: seq<Header>)
    requires KnownSort(sort)
    ensures KnownSort(ApplyClicks(sort, clicks))
    ensures forall list :: SortedList(ApplyClicks(sort, clicks), list).Some?
    decreases |clicks|
  {
    if |clicks| > 0 {
      ClicksKeepSortKnown(HandleSort(sort, HeaderKey(clicks[0])), clicks[1..]);
    }
  }

  /** From the initial sort, every sequence of header clicks keeps a key of the table. */
  lemma ReachableSortsAreKnown(clicks: seq<Header>)
    ensures ApplyClicks(InitialSort, clicks).sortKey in SortKeys
    ensures ApplyClicks(InitialSort, clicks).sortKey == "NONE" ==> !ApplyClicks(InitialSort, clicks).isReverse
  {
    ClicksKeepSortKnown(InitialSort, clicks);
  }
}

=== FILE: stories.dfy ===
/**
 `storiesReducer` of the search app: a closed state machine over the actions
 STORIES_FETCH_INIT, STORIES_FETCH_SUCCESS (payload `{list, page}`),
 STORIES_FETCH_FAILURE and REMOVE_STORY (payload: the story to dismiss).
 A success for page 0 replaces the list; a success for any other page appends
 to it. The reducer's `default: throw` cannot be reached because the action
 type here is closed.
 */
module Stories {
  import Items

  datatype State = State(data: seq<Items.Story>, page: int, isLoading: bool, isError: bool)

  /** The payload of a successful fetch: the hits and the page the API reports. */
  datatype Payload = Payload(list: seq<Items.Story>, page: int)

  datatype Action =
    | FetchInit
    | FetchSuccess(payload: Payload)
    | FetchFailure
    | RemoveStory(item: Items.Story)

  /** The state `useReducer` starts from. */
  const Initial: State := State([], 0, false, false)

  /** `storiesReducer(state, action)`. */
  function Reduce(state: State, action: Action): (next: State)
    ensures action.FetchInit? ==>
      next.isLoading && !next.isError && next.data == state.data && next.page == state.page
    ensures action.FetchSuccess? ==>
      !next.isLoading && !next.isError && next.page == action.payload.page
    ensures action.FetchSuccess? && action.payload.page == 0 ==>
      next.data == action.payload.list
    ensures action.FetchSuccess? && action.payload.page != 0 ==>
      && |next.data| == |state.data| + |action.payload.list|
      && next.data[..|state.data|] == state.data
      && next.data[|state.data|..] == action.payload.list
    ensures action.FetchFailure? ==>
      !next.isLoading && next.isError && next.data == state.data && next.page == state.page
    ensures action.RemoveStory? ==>
      && next.data == Items.RemoveById(state.data, action.item.objectID)
      && next.page == state.page
      && next.isLoading == state.isLoading && next.isError == state.isError
  {
    match action
    case FetchInit => state.(isLoading := true, isError := false)
    case FetchSuccess(payload) =>
      state.(
        isLoading := false,
        isError := false,
        data := if payload.page == 0 then payload.list else state.data + payload.list,
        page := payload.page)
    case FetchFailure => state.(isLoading := false, isError := true)
    case RemoveStory(item) => state.(data := Items.RemoveById(state.data, item.objectID))
  }

  /** Loading and error are never shown together. */
  predicate FlagsExclusive(state: State)
  {
    !(state.isLoading && state.isError)
  }

  /** Every action keeps the flags exclusive, and a settled fetch clears `isLoading`. */
  lemma ReducePreservesFlagsExclusive(state: State, action: Action)
    requires FlagsExclusive(state)
    ensures FlagsExclusive(Reduce(state, action))
    ensures (action.FetchSuccess? || action.FetchFailure?) ==> !Reduce(state, action).isLoading
  {
  }

  /**
   Dispatch a list of actions in order. When the last action is a fetch action,
   it alone decides the loading and error flags, and a last success the page.
   */
  function Run(state: State, actions: seq<Action>): (r: State)
    ensures |actions| > 0 && actions[|actions| - 1].FetchInit? ==> r.isLoading && !r.isError
    ensures |actions| > 0 && actions[|actions| - 1].FetchFailure? ==> !r.isLoading && r.isError
    ensures |actions| > 0 && actions[|actions| - 1].FetchSuccess? ==>
      !r.isLoading && !r.isError && r.page == actions[|actions| - 1].payload.page
    decreases |actions|
  {
    if |actions| == 0 then state else Run(Reduce(state, actions[0]), actions[1..])
  }

  /** From the initial state, no sequence of dispatches shows loading and error at once. */
  lemma {:induction false} RunPreservesFlagsExclusive(state: State, actions: seq<Action>)
    requires FlagsExclusive(state)
    ensures FlagsExclusive(Run(state, actions))
    decreases |actions|
  {
    if |actions| > 0 {
      ReducePreservesFlagsExclusive(state, actions[0]);
      RunPreservesFlagsExclusive(Reduce(state, actions[0]), actions[1..]);
    }
  }

  /** Dismissing a story twice leaves the same state as dismissing it once. */
  lemma RemoveStoryIdempotent(state: State, item: Items.Story)
    ensures Reduce(Reduce(state, RemoveStory(item)), RemoveStory(item)) == Reduce(state, RemoveStory(item))
  {
    Items.RemoveIdempotent(state.data, item.objectID);
  }

  /** Dismissing a story whose `objectID` is not shown leaves the state as it was, and only then. */
  lemma RemoveStoryNoOpIffAbsent(state: State, item: Items.Story)
    ensures Reduce(state, RemoveStory(item)) == state <==> item.objectID !in Items.Ids(state.data)
  {
    Items.RemoveAbsentIsNoOp(state.data, item.objectID);
  }

  /** Dismissal keeps the shown stories free of repeated `objectID`s and removes exactly that id. */
  lemma RemoveStoryKeepsIdsUnique(state: State, item: Items.Story)
    requires Items.UniqueIds(state.data)
    ensures Items.UniqueIds(Reduce(state, RemoveStory(item)).data)
    ensures Items.Ids(Reduce(state, RemoveStory(item)).data) == Items.Ids(state.data) - {item.objectID}
  {
    Items.RemovePreservesUniqueIds(state.data, item.objectID);
    Items.RemoveByIdIds(state.data, item.objectID);
  }

  /** `getSumComments(stories)`: the total of `num_comments` over the shown stories. */
  function GetSumComments(state: State): (r: int)
    ensures r == Items.SumComments(state.data)
  {
    Items.FoldComments(state.data, 0)
  }

  /** A later page adds its comments to the total; page 0 starts the total afresh. */
  lemma SuccessSumComments(state: State, payload: Payload)
    ensures GetSumComments(Reduce(state, FetchSuccess(payload)))
         == (if payload.page == 0 then 0 else GetSumComments(state)) + Items.SumComments(payload.list)
  {
    Items.SumCommentsAppend(state.data, payload.list);
  }

  /** With no negative counts, dismissing a story never raises the total. */
  lemma RemoveStoryNeverIncreasesSum(state: State, item: Items.Story)
    requires Items.NonNegativeComments(state.data)
    ensures 0 <= GetSumComments(Reduce(state, RemoveStory(item))) <= GetSumComments(state)
  {
    Items.RemoveNeverIncreasesSum(state.data, item.objectID);
  }
}

=== FILE: urls.dfy ===
/**
 The request URL format of the search app: `getUrl` builds
 `https://hn.algolia.com/api/v1/search?query=<term>&page=<page>` with the term
 embedded raw (no percent-encoding), and `extractSearchTerm` recovers the term
 by taking the text between the last '?' and the last '&' and deleting the
 first "query=" in it.
 */
module Urls {
  import Js

  const ApiBase: string := "https://hn.algolia.com/api/v1"
  const ApiSearch: string := "/search"
  const ParamSearch: string := "query="
  const ParamPage: string := "page="

  /** Everything before the '?' of a request URL. */
  const Endpoint: string := ApiBase + ApiSearch

  /** A search as the app issues it; it exists only in the form of its URL. */
  datatype Query = Query(term: string, page: int)

  /**
   `getUrl(searchTerm, page)`. Whatever the term holds, the URL's last '?'
   comes before its last '&', so `extractSearchTerm` reads a '?'-free term back.
   */
  function GetUrl(term: string, page: int): (url: string)
    ensures 0 <= Js.LastIndexOf(url, '?') < Js.LastIndexOf(url, '&')
  {
    UrlShape(term, page);
    Endpoint + "?" + ParamSearch + term + "&" + ParamPage + Js.IntToString(page)
  }

  /**
   The last '&' of the URL for `term` is the one before "page=": the text
   before it is the endpoint, '?', "query=" and the term, the text after it is
   "page=" and the rendered page, and the URL's last '?' comes before it.
   */
  lemma UrlShape(term: string, page: int)
    ensures var url := Endpoint + "?" + ParamSearch + term + "&" + ParamPage + Js.IntToString(page);
      var amp := Js.LastIndexOf(url, '&');
      && 0 <= Js.LastIndexOf(url, '?') < amp
      && url[..amp] == Endpoint + "?" + ParamSearch + term
      && url[amp + 1..] == ParamPage + Js.IntToString(page)
  {
    var head := Endpoint + "?" + ParamSearch + term;
    var post := ParamPage + Js.IntToString(page);
    var url := Endpoint + "?" + ParamSearch + term + "&" + ParamPage + Js.IntToString(page);
    assert url == head + "&" + post == head + ("&" + post);
    PageHasNoSeparators(page);
    Js.LastIndexOfSplit(head, '&', post);
    Js.LastIndexOfAppend(head, '?', "&" + post);
    Js.LastIndexOfAtLeast(head, '?', |Endpoint|);
  }

  /** The URL issued for a query. */
  function UrlOf(q: Query): string
  {
    GetUrl(q.term, q.page)
  }

  /**
   `extractSearchTerm(url)`. The term is never longer than the URL, and when
   the URL's last '?' precedes its last '&' the term holds no '?'.
   */
  function ExtractSearchTerm(url: string): (term: string)
    ensures |term| <= |url|
    ensures Js.LastIndexOf(url, '?') < Js.LastIndexOf(url, '&') ==> '?' !in term
  {
    var between := Js.Substring(url, Js.LastIndexOf(url, '?') + 1, Js.LastIndexOf(url, '&'));
    Js.SubstringAfterLast(url, '?', Js.LastIndexOf(url, '&'));
    Js.ReplaceFirstKeepsOut(between, ParamSearch, "", '?');
    Js.ReplaceFirst(between, ParamSearch, "")
  }

  /** The rendered page number and what precedes it hold neither separator. */
  lemma PageHasNoSeparators(page: int)
    ensures var rest := ParamPage + Js.IntToString(page);
      '?' !in rest && '&' !in rest
  {
    var digits := Js.IntToString(page);
    assert ParamPage == "page=";
    forall i | 0 <= i < |digits| ensures digits[i] != '?' && digits[i] != '&' {
      assert Js.IsDigit(digits[i]) || digits[i] == '-';
    }
  }

  /**
   In a URL `pre ? mid & post` whose last '?' and last '&' are the ones shown,
   `extractSearchTerm` returns `mid` with its first "query=" deleted.
   */
  lemma ExtractBetween(pre: string, mid: string, post: string)
    requires '?' !in mid && '?' !in post && '&' !in post
    ensures ExtractSearchTerm(pre + "?" + mid + "&" + post) == Js.ReplaceFirst(mid, ParamSearch, "")
  {
    var url := pre + "?" + mid + "&" + post;
    var head := pre + "?" + mid;
    assert url == pre + ['?'] + (mid + "&" + post);
    Js.LastIndexOfSplit(pre, '?', mid + "&" + post);
    assert url == head + ['&'] + post;
    Js.LastIndexOfSplit(head, '&', post);
    assert url[|pre| + 1..|head|] == mid;
  }

  /** The term can be read back from every URL `GetUrl` builds, whatever the page, as long as it holds no '?'. */
  lemma RoundTrip(term: string, page: int)
    requires '?' !in term
    ensures ExtractSearchTerm(GetUrl(term, page)) == term
  {
    var post := ParamPage + Js.IntToString(page);
    assert ParamSearch == "query=";
    PageHasNoSeparators(page);
    assert GetUrl(term, page) == Endpoint + "?" + (ParamSearch + term) + "&" + post;
    ExtractBetween(Endpoint, ParamSearch + term, post);
    Js.ReplaceFirstAtFront(ParamSearch, term);
  }

  /** The round trip stated for every term, conditioned on the term being '?'-free. */
  lemma RoundTripIfNoQuestionMark(term: string, page: int)
    ensures '?' !in term ==> ExtractSearchTerm(GetUrl(term, page)) == term
  {
    if '?' !in term {
      RoundTrip(term, page);
    }
  }

  /**
   A '?' inside the term moves the last '?' into the term: everything up to and
   including it is lost, and the text after it is what `extractSearchTerm` returns.
   */
  lemma QuestionMarkTruncates(before: string, after: string, page: int)
    requires '?' !in after
    ensures ExtractSearchTerm(GetUrl(before + "?" + after, page))
         == Js.ReplaceFirst(after, ParamSearch, "")
  {
    var pre := Endpoint + "?" + ParamSearch + before;
    var post := ParamPage + Js.IntToString(page);
    PageHasNoSeparators(page);
    calc {
      GetUrl(before + "?" + after, page);
      Endpoint + "?" + ParamSearch + (before + "?" + after) + "&" + ParamPage + Js.IntToString(page);
      { assert Endpoint + "?" + ParamSearch + (before + "?" + after) == pre + "?" + after; }
      pre + "?" + after + "&" + post;
    }
    ExtractBetween(pre, after, post);
  }

  /** Searching "what?" and reading the term back yields the empty string. */
  lemma QuestionMarkCounterexample()
    ensures ExtractSearchTerm(GetUrl("what?", 0)) == ""
  {
    assert "what?" == "what" + "?" + "";
    QuestionMarkTruncates("what", "", 0);
    assert Js.IndexOf("", ParamSearch) == -1;
  }

  /** Whatever the term holds, the term read back from its URL holds no '?'. */
  lemma ExtractedHasNoQuestionMark(term: string, page: int)
    ensures '?' !in ExtractSearchTerm(GetUrl(term, page))
  {
    var url := GetUrl(term, page);
    assert Js.LastIndexOf(url, '?') < Js.LastIndexOf(url, '&');
  }

  /** Two terms that build the same URL are the same term, '?' or not. */
  lemma GetUrlDeterminesTerm(t1: string, p1: int, t2: string, p2: int)
    requires GetUrl(t1, p1) == GetUrl(t2, p2)
    ensures t1 == t2
  {
    UrlShape(t1, p1);
    UrlShape(t2, p2);
    var url := GetUrl(t1, p1);
    var amp := Js.LastIndexOf(url, '&');
    var k := |Endpoint + "?" + ParamSearch|;
    var head1 := Endpoint + "?" + ParamSearch + t1;
    var head2 := Endpoint + "?" + ParamSearch + t2;
    assert url[..amp] == head1 && url[..amp] == head2;
    assert head1[k..] == t1;
    assert head2[k..] == t2;
  }
}
